=== FILE: README.md ===
# Veeva CLM adapter: navigation, query bridging and lookup envelopes

This project models the decision logic of `assets/js/veeva/veeva-methods.js`,
the adapter between a slide viewer and the Veeva CLM host object
`com.veeva.clm`. The host is an oracle (`ClmHost.Host`). It gives the
response each query callback receives and the object each
`getDataForObject` callback receives. Every modelled operation is a pure
function returning `Run(calls, result)`. `calls` is the ordered trace of
host calls the operation issued, with their arguments. `result` is what
the caller gets back, with two exceptions. For `trackAction` it is the
record that is sent and logged. For `goToDSP` it is how the run ended
(`Navigation.DspOutcome`). The caller of either gets `undefined`, because
both log the errors they catch. A failed `goToDSP` navigation is
therefore silent. The one error that reaches a caller is `trackAction`'s
throw on a `null` or `undefined` argument.

Modules:

- `Js` (js.dfy): the JavaScript values the adapter handles. A field is a
  string or `undefined`. `String(undefined)` gives `"undefined"`. The file
  also defines truthiness, `a || default`, `endsWith` and `includes`, and
  the non-empty message of a TypeError raised by a failed property read.
- `ClmHost` (host.dfy): query requests and responses, the host-call trace,
  the query callback (`Settle`), `queryRecord` (`QueryRecord`), and the
  row accesses `data[0]` and `data[0].field`. It also has a lemma that a
  trace whose only navigation is last navigates at most once.
- `Navigation` (navigation.dfy): `goToSlide` and `goToDSP`.
- `Lookups` (lookups.dfy): `getBrandInfoData`, `getBrand` and
  `getKeyMessageData`, with their envelopes and where-clauses.
- `Tracking` (tracking.dfy): the clickstream record of `trackAction` and
  the `Zoom_vod` test of `isZoomDisabled`.

`queryRecord`'s result has three shapes (`ClmHost.Data`):
- `Null`: the host reported failure.
- `Absent`: the host reported success, but the response had no entry for
  the collection, so `response[object]` is `undefined`.
- `Rows(rows)`: the row list.

Every caller treats `Null` and `Absent` alike: the next `[0]` throws. The
model keeps them apart anyway, because the resulting error message differs.

Behaviour worth knowing when reading the model:
- `queryRecord` yields `null` when the host reports failure, so a later
  `[0].field` throws a TypeError, which the caller's catch handles.
- `goToDSP` has no guard on its document id: it always issues the
  presentation query. It always makes the two-argument navigation call,
  even when `Presentation_Id_vod__c` is absent.
- `getKeyMessageData` with an empty row list answers
  `{success: true, message: 'Success'}` with no data fields. Row fields are
  spread after `success` and `message`, so a row field with either name
  overrides it.
- `trackAction` reads the tracking object's fields before its `try`, so a
  `null` or `undefined` argument throws to the caller and nothing is
  created.

## Model

| member | source | states |
|---|---|---|
| Js.Includes | assets/js/veeva/veeva-methods.js:168 | `s.includes(pat)` is true exactly when `pat` occurs in `s` at some index |
| ClmHost.Settle | assets/js/veeva/veeva-methods.js:217-223 | the query callback resolves exactly when `success` holds, and then takes `response[object]` (`undefined` if absent, never `null`); otherwise it throws with the host's message when that is a non-empty string, and with "Error getting data" otherwise |
| ClmHost.QueryRecord | assets/js/veeva/veeva-methods.js:212-231 | exactly one host query; the result is `null` exactly when the host reports failure, and it is the collection's rows exactly when the host succeeds and returns that collection; no error reaches the caller |
| ClmHost.Index0 | assets/js/veeva/veeva-methods.js:371 | `data[0]` throws on `null` or `undefined` data; otherwise it is `undefined` for an empty list and the first row otherwise |
| ClmHost.FirstRow | assets/js/veeva/veeva-methods.js:57-58 | `data[0].field` succeeds exactly when the data holds a row, and then reads the first row; otherwise it throws a non-empty message |
| ClmHost.ObjectField | assets/js/veeva/veeva-methods.js:78 | `response.Key_Message_vod__c.Media_File_Name_vod__c` succeeds exactly when the response is non-null and has the object kind |
| ClmHost.AtMostOneNavigation | assets/js/veeva/veeva-methods.js:60-82 | a trace whose only navigation can be the last call navigates at most once, and exactly when its last call is a navigation |
| Navigation.NormalizeSlide | assets/js/veeva/veeva-methods.js:26 | the target ends in `.zip`, starts with the given name, and is longer only by the four suffix characters, and only when the name lacked the suffix |
| Navigation.NormalizeIdempotent | assets/js/veeva/veeva-methods.js:26 | normalising twice equals normalising once |
| Navigation.NormalizeStripsBack | assets/js/veeva/veeva-methods.js:26 | dropping the added suffix gives back a name that lacked it |
| Navigation.GoToSlide | assets/js/veeva/veeva-methods.js:25-36 | exactly one navigation call, to the normalised name; it is the two-argument call exactly when the presentation is truthy, and then it carries that presentation |
| Navigation.GoToSlideNormalizedAlike | assets/js/veeva/veeva-methods.js:25-36 | a name and its normalised form (`01-home` and `01-home.zip`) issue the same call |
| Navigation.GoToDSP | assets/js/veeva/veeva-methods.js:47-87 | the presentation query comes first. With no presentation row, nothing else is sent and the error is caught. With a media file name, exactly one query, then navigation to (name, `Presentation_Id_vod__c`). Otherwise, the slide query keyed by the row's `Id` with display order 1, then the media lookup of its key message; a missing slide row or unusable media response stops before navigating. Navigation is always last and happens only on the `Navigated` outcome |
| Navigation.DspFullChain | assets/js/veeva/veeva-methods.js:63-82 | with every lookup answered, the trace is exactly presentation query, slide query, media lookup, navigation to (media file, `Presentation_Id_vod__c`) |
| Navigation.DspNavigatesAtMostOnce | assets/js/veeva/veeva-methods.js:47-87 | for every host, `goToDSP` issues at most one navigation, and one exactly when it reports `Navigated` |
| Navigation.DspScenario | assets/js/veeva/veeva-methods.js:47-87 | document DOC123 with presentation a001/P1, key message KM1 and media intro.zip navigates to ("intro.zip", "P1") after three lookups |
| Lookups.BrandFailure | assets/js/veeva/veeva-methods.js:292-300 | the catch envelope has `success` false, every domain field empty, and the error's message, or "Error getting data" when that is empty |
| Lookups.CompositeKeyRoundTrip | assets/js/veeva/veeva-methods.js:275 | `customerId:externalId` splits back at its first colon into both parts when the customer id has no colon |
| Lookups.CompositeKeyAmbiguous | assets/js/veeva/veeva-methods.js:275 | without the colon-free condition the key is ambiguous: `a:b` with `c` and `a` with `b:c` give the same key |
| Lookups.CompositeKeyInjective | assets/js/veeva/veeva-methods.js:275 | two composite keys with colon-free customer ids are equal only when both parts are |
| Lookups.GetBrandInfoData | assets/js/veeva/veeva-methods.js:272-304 | with no product row, it rejects before any query. Otherwise one fact query on `External_Id__c = 'customerId:External_ID_vod__c'`. It succeeds exactly when a fact row exists, and then carries the brand name, the product's `Id`, and the fact's `Id`, `KeyMessage__c` and `KeyMessageCodes__c`; a failure comes back as a well-formed envelope |
| Lookups.GetBrand | assets/js/veeva/veeva-methods.js:314-343 | always an envelope: on success `message` is "Success", `product` is the name, `productId` is the product row's `Id`, and `recordId`, `keyMessages` and `keyMessageCodes` are the fact row's `Id`, `KeyMessage__c` and `KeyMessageCodes__c`; on failure every domain field is empty and `message` is non-empty. First the product query by name, then the fact query only when a product row exists. `success` holds exactly when the fact query returns a row |
| Lookups.GetBrandIgnoresProductIds | assets/js/veeva/veeva-methods.js:318-320 | the product ids change neither the calls nor the envelope |
| Lookups.RowProperties | assets/js/veeva/veeva-methods.js:371 | spreading a row adds exactly its fields, each as a string property |
| Lookups.KeyMessageRequestInjective | assets/js/veeva/veeva-methods.js:362 | the `Id = … or External_Id__c = …` filter determines the id: different ids give different where-clauses |
| Lookups.GetKeyMessageData | assets/js/veeva/veeva-methods.js:351-380 | a falsy id gives `{success: false, message: 'External_Id__c is missing'}` with no call. Otherwise exactly one query. A `null`/`undefined` result gives `success: false` with a non-empty message. An empty list gives exactly `{success: true, message: 'Success'}`. A row gives its fields plus `success`/`message`, which are true/"Success" unless the row overrides them |
| Tracking.ClickStream | assets/js/veeva/veeva-methods.js:98-102 | the clickstream record has three fields, from which the tracking object reads back unchanged |
| Tracking.ClickStreamInjective | assets/js/veeva/veeva-methods.js:98-102 | different tracking objects give different records |
| Tracking.TrackAction | assets/js/veeva/veeva-methods.js:96-110 | a `null` or `undefined` argument throws to the caller with no host call; otherwise exactly one createRecord call on `Call_Clickstream_vod__c` and no navigation, carrying the logged record, which has exactly the three clickstream fields and reads back as the tracking object |
| Tracking.ZoomDisabled | assets/js/veeva/veeva-methods.js:168 | zoom is disabled exactly when "Zoom_vod" occurs somewhere in the disabled-actions text |
| Tracking.ZoomDisabledExamples | assets/js/veeva/veeva-methods.js:168 | "Swipe_vod;Zoom_vod" disables zoom and "Swipe_vod" does not |

## Left out

- `goToNextSlide` and `goToPreviousSlide`: each forwards to one host call with no logic.
- `getCLMSlideId`, `getDataForCurrentAccount` and `getAccount`: promise wrappers that return one host field or the first row, with nothing to state beyond that.
- `isZoomDisabled`: only the `Zoom_vod` test is modelled. The promise around it and its rejection on a falsy response are not.
- The `com.veeva.clm` library is not part of this repository. It appears only as the oracle `Host` and as the recorded calls.
- Callback timing is not modelled. Each callback is assumed to fire exactly once. A callback that never fires, or fires twice, is not modelled.
- ClmHost.Settle: assumes the host runs the query callback synchronously, so the `throw` in it rejects the promise and `queryRecord` returns `null`. With an asynchronous callback, the promise would stay pending and `queryRecord` would never return.
- Navigation.GoToDSP: the `CallbackThrew` outcome stands for a throw inside the unawaited `getDataForObject` callback. `goToDSP`'s catch sees that throw only when the callback runs synchronously. Either way there is no navigation.
- Logging (`console.log`, `console.error`) is left out. It has no effect on results.
- SOQL meaning is not modelled. Where-clauses are opaque strings built by unescaped interpolation. Query evaluation and injection are out of scope.
- Navigation.GoToSlide: takes the slide name as a string. A non-string slide makes `slide.endsWith` throw a TypeError to the caller, with no navigation; that case is not modelled.
- `String(...)` of arbitrary JavaScript values is not modelled. Record fields are strings or absent. The document id, media file name, product name and customer id are strings, and a missing media file name is the default `''`.
- The exact wording of TypeError messages depends on the JavaScript engine. The model uses its own wording and relies only on the message being non-empty.
- A query response that is itself `null`, or a `response[object]` that is not an array, is not modelled.

=== FILE: host.dfy ===
/** The `com.veeva.clm` host seen from the adapter: the calls it is sent, an
    oracle for the responses its callbacks deliver, and the adapter's
    `queryRecord` bridge that turns a query callback into data. */
module ClmHost {
  import opened Js

  /** The arguments of one `com.veeva.clm.queryRecord` call. The where-clause
      is an opaque string that only the host interprets. */
  datatype QueryRequest = QueryRequest(
    collection: string,
    fields: seq<string>,
    where: string,
    sort: seq<string>,
    limit: string)

  /** What the query callback receives: the success flag, an optional
      message, and the row lists keyed by collection name. */
  datatype QueryResponse = QueryResponse(
    success: bool,
    message: Value,
    collections: map<string, seq<Row>>)

  /** One call the adapter issues on the host, with its arguments. */
  datatype HostCall =
    | QueryCall(request: QueryRequest)
    | ObjectDataCall(objectKind: string, id: Value, field: string)
    | SlideCall(slide: Value)
    | SlideInCall(slide: Value, presentation: Value)
    | CreateCall(collection: string, payload: map<string, Value>)

  /** The host as an oracle: the response each query callback receives, and
      the object (`null` as `None`) each `getDataForObject` callback receives.
      Every callback is assumed to fire exactly once. */
  datatype Host = Host(
    query: QueryRequest -> QueryResponse,
    objectData: (string, Value, string) -> Option<map<string, Row>>)

  /** The trace of host calls an operation issued, in order, and its result. */
  datatype Run<T> = Run(calls: seq<HostCall>, result: T)

  /** What `queryRecord` hands back: `null` (the host reported failure),
      `undefined` (success, but the response lacks the collection), or the
      list of rows. */
  datatype Data = Null | Absent | Rows(rows: seq<Row>)

  /** How the promise inside `queryRecord` settles for a response. */
  datatype Settlement = Resolved(data: Data) | Rejected(message: string)

  /** The query callback: on success take `response[object]`, otherwise throw
      an Error with the host's message or a default one. The throw rejects
      the promise only when the host calls back synchronously; this model
      assumes it does. */
  function Settle(response: QueryResponse, collection: string): (s: Settlement)
    ensures s.Resolved? <==> response.success
    ensures s.Resolved? ==> s.data != Null
    ensures s.Resolved? && collection in response.collections ==>
              s.data == Rows(response.collections[collection])
    ensures s.Resolved? && collection !in response.collections ==> s.data == Absent
    ensures s.Rejected? ==> s.message != ""
    ensures s.Rejected? && Truthy(response.message) ==> s.message == response.message.s
    ensures s.Rejected? && !Truthy(response.message) ==> s.message == "Error getting data"
  {
    if response.success then
      Resolved(if collection in response.collections then Rows(response.collections[collection]) else Absent)
    else
      Rejected(OrDefault(if response.message.Str? then response.message.s else "", "Error getting data"))
  }

  /** `queryRecord(object, fields, where, sort, limit)`: exactly one host
      query, and a rejection is logged and turned into `null`, so no error
      ever reaches the caller. */
  function QueryRecord(host: Host, request: QueryRequest): (run: Run<Data>)
    ensures run.calls == [QueryCall(request)]
    ensures run.result == Null <==> !host.query(request).success
    ensures run.result.Rows? <==>
              host.query(request).success && request.collection in host.query(request).collections
    ensures run.result.Rows? ==> run.result.rows == host.query(request).collections[request.collection]
  {
    var data := match Settle(host.query(request), request.collection)
                case Resolved(d) => d
                case Rejected(_) => Null;
    Run([QueryCall(request)], data)
  }

  /** The data holds at least one row, so `data[0].field` does not throw. */
  predicate HasRow(data: Data)
  {
    data.Rows? && |data.rows| > 0
  }

  /** `data[0]`: throws on `null` and `undefined`, yields `undefined`
      (`None`) for an empty list. */
  function Index0(data: Data): (r: Result<Option<Row>>)
    ensures r.Throw? <==> !data.Rows?
    ensures r.Throw? ==> r.message != ""
    ensures r.Ok? ==> (r.value.Some? <==> |data.rows| > 0)
    ensures r.Ok? && r.value.Some? ==> r.value.value == data.rows[0]
  {
    match data
    case Null => Throw(AccessError("null", "0"))
    case Absent => Throw(AccessError("undefined", "0"))
    case Rows(rows) => Ok(if |rows| == 0 then None else Some(rows[0]))
  }

  /** The first row, as needed by an expression `data[0].field`: it throws
      unless `data` holds at least one row. */
  function FirstRow(data: Data, field: string): (r: Result<Row>)
    ensures r.Ok? <==> HasRow(data)
    ensures r.Ok? ==> r.value == data.rows[0]
    ensures r.Throw? ==> r.message != ""
  {
    match Index0(data)
    case Throw(m) => Throw(m)
    case Ok(None) => Throw(AccessError("undefined", field))
    case Ok(Some(row)) => Ok(row)
  }

  /** `response[kind][field]` on a `getDataForObject` response. */
  function ObjectField(response: Option<map<string, Row>>, kind: string, field: string): (r: Result<Value>)
    ensures r.Ok? <==> response.Some? && kind in response.value
    ensures r.Ok? ==> r.value == Get(response.value[kind], field)
    ensures r.Throw? ==> r.message != ""
  {
    match response
    case None => Throw(AccessError("null", kind))
    case Some(obj) =>
      if kind in obj then Ok(Get(obj[kind], field)) else Throw(AccessError("undefined", field))
  }

  // ----- trace shape -------------------------------------------------------

  predicate IsNavigation(c: HostCall)
  {
    c.SlideCall? || c.SlideInCall?
  }

  /** Number of navigation calls in a trace. */
  function Navigations(calls: seq<HostCall>): nat
  {
    if |calls| == 0 then 0
    else Navigations(calls[..|calls| - 1]) + (if IsNavigation(calls[|calls| - 1]) then 1 else 0)
  }

  /** A navigation call, if any, is the last call issued. */
  predicate NavigationIsLast(calls: seq<HostCall>)
  {
    forall i :: 0 <= i < |calls| - 1 ==> !IsNavigation(calls[i])
  }

  /** A trace whose only navigation can be its last call navigates at most
      once, and navigates exactly when its last call is a navigation. */
  lemma {:induction false} AtMostOneNavigation(calls: seq<HostCall>)
    requires NavigationIsLast(calls)
    ensures Navigations(calls) <= 1
    ensures Navigations(calls) == 1 <==> |calls| > 0 && IsNavigation(calls[|calls| - 1])
  {
    if |calls| > 0 {
      NoNavigation(calls[..|calls| - 1]);
    }
  }

  lemma {:induction false} NoNavigation(calls: seq<HostCall>)
    requires forall i :: 0 <= i < |calls| ==> !IsNavigation(calls[i])
    ensures Navigations(calls) == 0
  {
    if |calls| > 0 {
      NoNavigation(calls[..|calls| - 1]);
    }
  }
}

=== FILE: js.dfy ===
/** JavaScript values as the adapter sees them: record fields are strings or
    absent, strings are sequences of characters, and a failed property read
    raises a TypeError whose text the engine chooses. */
module Js {

  /** A field value or argument: a string, or `undefined` when absent. */
  datatype Value = Undefined | Str(s: string)

  /** A CRM record: field name to string value; a missing key reads as `undefined`. */
  type Row = map<string, string>

  /** `row.field` */
  function Get(row: Row, field: string): (v: Value)
    ensures v.Str? <==> field in row
    ensures v.Str? ==> v.s == row[field]
  {
    if field in row then Str(row[field]) else Undefined
  }

  /** `String(v)`, which is also what a template literal `${v}` produces. */
  function ToStr(v: Value): string
  {
    match v
    case Str(s) => s
    case Undefined => "undefined"
  }

  /** JavaScript truthiness of a string-or-undefined value. */
  predicate Truthy(v: Value)
  {
    v.Str? && v.s != ""
  }

  /** `a || b` on two strings, as used for default error messages. */
  function OrDefault(a: string, fallback: string): (r: string)
    ensures fallback != "" ==> r != ""
    ensures a != "" ==> r == a
  {
    if a != "" then a else fallback
  }

  /** The message of the TypeError raised by reading `key` of `base`
      (`base` is "null" or "undefined"). Engines word it differently; this
      model fixes one wording and relies only on it being non-empty. */
  function AccessError(base: string, key: string): (m: string)
    ensures m != ""
  {
    "TypeError: cannot read property '" + key + "' of " + base
  }

  /** An optional value; `None` stands for JavaScript `null` or `undefined`. */
  datatype Option<T> = None | Some(value: T)

  /** An exception-carrying outcome: `Ok` or a thrown error with its message. */
  datatype Result<T> = Ok(value: T) | Throw(message: string)

  /** `s.endsWith(suffix)` */
  predicate EndsWith(s: string, suffix: string)
  {
    |suffix| <= |s| && s[|s| - |suffix|..] == suffix
  }

  /** `pat` occurs in `s` starting at index `i`. */
  predicate OccursAt(s: string, pat: string, i: int)
  {
    0 <= i && i + |pat| <= |s| && s[i..i + |pat|] == pat
  }

  /** `s.includes(pat)`: whether `pat` is a substring of `s`. */
  function Includes(s: string, pat: string): (r: bool)
    ensures r <==> exists i :: OccursAt(s, pat, i)
    decreases |s|
  {
    if |s| < |pat| then
      assert forall i :: !OccursAt(s, pat, i);
      false
    else if s[..|pat|] == pat then
      assert OccursAt(s, pat, 0);
      true
    else
      var rest := Includes(s[1..], pat);
      ShiftOccurrence(s, pat);
      rest
  }

  /** An occurrence in `s` past index 0 is an occurrence in `s[1..]`, and back. */
  lemma ShiftOccurrence(s: string, pat: string)
    requires |s| >= |pat| && s[..|pat|] != pat
    ensures (exists i :: OccursAt(s, pat, i)) <==> (exists j :: OccursAt(s[1..], pat, j))
  {
    if exists i :: OccursAt(s, pat, i) {
      var i :| OccursAt(s, pat, i);
      assert i != 0;
      assert s[1..][i - 1..i - 1 + |pat|] == s[i..i + |pat|];
      assert OccursAt(s[1..], pat, i - 1);
    }
    if exists j :: OccursAt(s[1..], pat, j) {
      var j :| OccursAt(s[1..], pat, j);
      assert s[j + 1..j + 1 + |pat|] == s[1..][j..j + |pat|];
      assert OccursAt(s, pat, j + 1);
    }
  }
}

=== FILE: lookups.dfy ===
/** The typed lookups that answer with an envelope instead of throwing:
    `getBrandInfoData`, `getBrand` and `getKeyMessageData`. */
module Lookups {
  import opened Js
  import opened ClmHost

  /** `field = 'value'`, the quoted equality the where-clauses are built from. */
  function EqualsClause(field: string, value: string): string
  {
    field + " = '" + value + "'"
  }

  // ----- getBrand / getBrandInfoData ---------------------------------------

  /** The envelope both brand lookups return. */
  datatype BrandInfo = BrandInfo(
    success: bool,
    product: string,
    productId: string,
    recordId: string,
    keyMessages: string,
    keyMessageCodes: string,
    message: string)

  /** What every brand envelope promises: a success carries the message
      "Success"; a failure carries empty domain fields and a non-empty
      message. */
  predicate WellFormedBrand(b: BrandInfo)
  {
    if b.success then b.message == "Success"
    else b.product == "" && b.productId == "" && b.recordId == ""
         && b.keyMessages == "" && b.keyMessageCodes == "" && b.message != ""
  }

  /** The envelope both catch blocks build from an error message. */
  function BrandFailure(errorMessage: string): (b: BrandInfo)
    ensures !b.success && WellFormedBrand(b)
    ensures errorMessage != "" ==> b.message == errorMessage
    ensures errorMessage == "" ==> b.message == "Error getting data"
  {
    BrandInfo(false, "", "", "", "", "", OrDefault(errorMessage, "Error getting data"))
  }

  /** The composite external id `customerId:productExternalId`. */
  function CompositeKey(customerId: string, productExternalId: string): string
  {
    customerId + ":" + productExternalId
  }

  /** Index of the first colon in `s`, or `|s|` when it has none. */
  function FirstColon(s: string): (i: nat)
    ensures i <= |s|
    ensures i < |s| ==> s[i] == ':'
    ensures forall j :: 0 <= j < i ==> s[j] != ':'
  {
    if |s| == 0 || s[0] == ':' then 0 else 1 + FirstColon(s[1..])
  }

  /** Splits a composite key at its first colon; `None` when it has none. */
  function SplitKey(key: string): Option<(string, string)>
  {
    var i := FirstColon(key);
    if i == |key| then None else Some((key[..i], key[i + 1..]))
  }

  lemma {:induction false} FirstColonOfKey(customerId: string, productExternalId: string)
    requires ':' !in customerId
    ensures FirstColon(CompositeKey(customerId, productExternalId)) == |customerId|
  {
    if |customerId| > 0 {
      assert CompositeKey(customerId, productExternalId)[1..] == CompositeKey(customerId[1..], productExternalId);
      FirstColonOfKey(customerId[1..], productExternalId);
    }
  }

  /** The composite key splits back into its parts as long as the customer
      id holds no colon; the product external id may hold any. */
  lemma CompositeKeyRoundTrip(customerId: string, productExternalId: string)
    requires ':' !in customerId
    ensures SplitKey(CompositeKey(customerId, productExternalId)) == Some((customerId, productExternalId))
  {
    var key := CompositeKey(customerId, productExternalId);
    FirstColonOfKey(customerId, productExternalId);
    assert key[..|customerId|] == customerId;
    assert key[|customerId| + 1..] == productExternalId;
  }

  /** Without that condition the key is ambiguous: a colon in the customer
      id can move into the product external id and give the same key. */
  lemma CompositeKeyAmbiguous()
    ensures CompositeKey("a:b", "c") == CompositeKey("a", "b:c")
  {
  }

  /** Hence two such keys are equal only when their parts are. */
  lemma CompositeKeyInjective(c1: string, e1: string, c2: string, e2: string)
    requires ':' !in c1 && ':' !in c2
    requires CompositeKey(c1, e1) == CompositeKey(c2, e2)
    ensures c1 == c2 && e1 == e2
  {
    CompositeKeyRoundTrip(c1, e1);
    CompositeKeyRoundTrip(c2, e2);
  }

  /** The product lookup by name. */
  function ProductRequest(productName: string): QueryRequest
  {
    QueryRequest("Product_vod__c", ["Id", "External_ID_vod__c"],
                 "WHERE " + EqualsClause("Name", productName), ["Name, ASC"], "1")
  }

  /** The brand-fact lookup by composite external id. */
  function FactRequest(customerId: string, productExternalId: string): QueryRequest
  {
    QueryRequest("Account_Key_Message__c", ["Id", "KeyMessageCodes__c", "KeyMessage__c"],
                 "WHERE " + EqualsClause("External_Id__c", CompositeKey(customerId, productExternalId)),
                 ["Name, ASC"], "1")
  }

  /** `getBrandInfoData(brandName, product, customerId)`. The where-clause is
      built before the try block, so a missing product row rejects the
      returned promise (`Throw`) without a query; every later failure is
      caught into a failure envelope. */
  function GetBrandInfoData(host: Host, brandName: string, product: Data, customerId: string)
    : (run: Run<Result<BrandInfo>>)
    ensures run.result.Throw? <==> !HasRow(product)
    ensures run.result.Throw? ==> run.calls == [] && run.result.message != ""
    ensures HasRow(product) ==>
              var request := FactRequest(customerId, ToStr(Get(product.rows[0], "External_ID_vod__c")));
              var fact := QueryRecord(host, request).result;
              && run.calls == [QueryCall(request)]
              && WellFormedBrand(run.result.value)
              && (run.result.value.success <==> HasRow(fact))
              && (HasRow(fact) ==>
                    run.result.value == BrandInfo(true, brandName,
                                                  ToStr(Get(product.rows[0], "Id")),
                                                  ToStr(Get(fact.rows[0], "Id")),
                                                  ToStr(Get(fact.rows[0], "KeyMessage__c")),
                                                  ToStr(Get(fact.rows[0], "KeyMessageCodes__c")),
                                                  "Success"))
  {
    match FirstRow(product, "External_ID_vod__c")
    case Throw(m) => Run([], Throw(m))
    case Ok(productRow) =>
      var q := QueryRecord(host, FactRequest(customerId, ToStr(Get(productRow, "External_ID_vod__c"))));
      var envelope := match FirstRow(q.result, "Id")
                      case Throw(m) => BrandFailure(m)
                      case Ok(fact) =>
                        BrandInfo(true, brandName,
                                  ToStr(Get(productRow, "Id")),
                                  ToStr(Get(fact, "Id")),
                                  ToStr(Get(fact, "KeyMessage__c")),
                                  ToStr(Get(fact, "KeyMessageCodes__c")),
                                  "Success");
      Run(q.calls, Ok(envelope))
  }

  /** `getBrand(productName, productIds, customerId)`: looks the product up
      by name, then hands the rows to `getBrandInfoData`; a rejection from
      it is caught into a failure envelope, so an envelope always comes
      back. `productIds` is only checked for a log line. */
  function GetBrand(host: Host, productName: string, productIds: Value, customerId: string)
    : (run: Run<BrandInfo>)
    ensures WellFormedBrand(run.result)
    ensures |run.calls| >= 1 && run.calls[0] == QueryCall(ProductRequest(productName))
    ensures var product := QueryRecord(host, ProductRequest(productName)).result;
            !HasRow(product) ==> run.calls == [QueryCall(ProductRequest(productName))] && !run.result.success
    ensures var product := QueryRecord(host, ProductRequest(productName)).result;
            HasRow(product) ==>
              var request := FactRequest(customerId, ToStr(Get(product.rows[0], "External_ID_vod__c")));
              && run.calls == [QueryCall(ProductRequest(productName)), QueryCall(request)]
              && (run.result.success <==> HasRow(QueryRecord(host, request).result))
    ensures run.result.success ==> run.result.product == productName
    ensures var product := QueryRecord(host, ProductRequest(productName)).result;
            run.result.success ==>
              HasRow(product) &&
              var fact := QueryRecord(host, FactRequest(customerId, ToStr(Get(product.rows[0], "External_ID_vod__c")))).result;
              && HasRow(fact)
              && run.result.productId == ToStr(Get(product.rows[0], "Id"))
              && run.result.recordId == ToStr(Get(fact.rows[0], "Id"))
              && run.result.keyMessages == ToStr(Get(fact.rows[0], "KeyMessage__c"))
              && run.result.keyMessageCodes == ToStr(Get(fact.rows[0], "KeyMessageCodes__c"))
  {
    var q := QueryRecord(host, ProductRequest(productName));
    var info := GetBrandInfoData(host, productName, q.result, customerId);
    var envelope := match info.result
                    case Ok(b) => b
                    case Throw(m) => BrandFailure(m);
    Run(q.calls + info.calls, envelope)
  }

  /** The product ids play no part in what `getBrand` does. */
  lemma GetBrandIgnoresProductIds(host: Host, productName: string, ids1: Value, ids2: Value, customerId: string)
    ensures GetBrand(host, productName, ids1, customerId) == GetBrand(host, productName, ids2, customerId)
  {
  }

  // ----- getKeyMessageData -------------------------------------------------

  /** A property value of the plain object `getKeyMessageData` resolves to. */
  datatype Json = JBool(b: bool) | JStr(s: string)

  /** The object `getKeyMessageData` resolves to, as property name to value. */
  type Envelope = map<string, Json>

  function Status(success: bool, message: string): Envelope
  {
    map["success" := JBool(success), "message" := JStr(message)]
  }

  /** The row's fields as object properties. */
  function RowProperties(row: Row): (p: Envelope)
    ensures p.Keys == row.Keys
    ensures forall k :: k in row ==> p[k] == JStr(row[k])
  {
    map k | k in row :: JStr(row[k])
  }

  /** The key-message fact whose record id or external id is `id`. */
  function KeyMessageRequest(id: string): QueryRequest
  {
    QueryRequest("Account_Key_Message_Fact__c", ["Id", "Type__c", "Value__c", "External_Id__c"],
                 "WHERE " + EqualsClause("Id", id) + " or " + EqualsClause("External_Id__c", id),
                 ["Type__c, ASC"], "1")
  }

  /** `x` sits right after `p` in `p + x + rest`. */
  lemma InfixSlice(p: string, x: string, rest: string)
    ensures (p + x + rest)[|p|..|p| + |x|] == x
  {
  }

  /** A string placed twice between fixed separators is determined by the
      result. */
  lemma TwiceInfixDetermined(p: string, m: string, q: string, a: string, b: string)
    requires p + a + (m + a + q) == p + b + (m + b + q)
    ensures a == b
  {
    assert |a| == |b|;
    InfixSlice(p, a, m + a + q);
    InfixSlice(p, b, m + b + q);
  }

  /** Distinct ids give distinct key-message queries: the id can be read
      back from the where-clause. */
  lemma KeyMessageRequestInjective(a: string, b: string)
    requires KeyMessageRequest(a).where == KeyMessageRequest(b).where
    ensures a == b
  {
    var prefix, middle, close := "WHERE Id = '", "' or External_Id__c = '", "'";
    assert KeyMessageRequest(a).where == prefix + a + (middle + a + close);
    assert KeyMessageRequest(b).where == prefix + b + (middle + b + close);
    TwiceInfixDetermined(prefix, middle, close, a, b);
  }

  /** `getKeyMessageData(id)`: a falsy id is refused without a query;
      otherwise one query whose first row, if any, is spread over
      `{success: true, message: 'Success'}`; a failed row access becomes
      `{success: false, message}`. */
  function GetKeyMessageData(host: Host, id: Value): (run: Run<Envelope>)
    ensures "success" in run.result && "message" in run.result
    ensures !Truthy(id) ==> run.calls == [] && run.result == Status(false, "External_Id__c is missing")
    ensures Truthy(id) ==> run.calls == [QueryCall(KeyMessageRequest(id.s))]
    ensures Truthy(id) ==>
              var data := QueryRecord(host, KeyMessageRequest(id.s)).result;
              && (!data.Rows? ==> run.result.Keys == {"success", "message"}
                                  && run.result["success"] == JBool(false)
                                  && run.result["message"].JStr? && run.result["message"].s != "")
              && (data == Rows([]) ==> run.result == Status(true, "Success"))
              && (HasRow(data) ==>
                    var row := data.rows[0];
                    && run.result.Keys == row.Keys + {"success", "message"}
                    && (forall k :: k in row ==> run.result[k] == JStr(row[k]))
                    && ("success" !in row ==> run.result["success"] == JBool(true))
                    && ("message" !in row ==> run.result["message"] == JStr("Success")))
  {
    if !Truthy(id) then
      Run([], Status(false, "External_Id__c is missing"))
    else
      var q := QueryRecord(host, KeyMessageRequest(id.s));
      var envelope := match Index0(q.result)
                      case Throw(m) => Status(false, OrDefault(m, "Error getting data"))
                      case Ok(None) => Status(true, "Success")
                      case Ok(Some(row)) => Status(true, "Success") + RowProperties(row);
      Run(q.calls, envelope)
  }
}

=== FILE: navigation.dfy ===
/** Slide navigation: `goToSlide` (archive-name normalisation and the choice
    between the one- and two-argument host call) and `goToDSP` (resolving a
    Vault document id into a slide of its presentation). */
module Navigation {
  import opened Js
  import opened ClmHost

  const ZipSuffix: string := ".zip"

  /** The slide archive name: `name` becomes `name.zip` unless it already
      ends in `.zip`. */
  function NormalizeSlide(slide: string): (r: string)
    ensures EndsWith(r, ZipSuffix)
    ensures |slide| <= |r| && r[..|slide|] == slide
    ensures |r| == if EndsWith(slide, ZipSuffix) then |slide| else |slide| + |ZipSuffix|
  {
    if EndsWith(slide, ZipSuffix) then slide else slide + ZipSuffix
  }

  /** Normalising an already normalised name changes nothing. */
  lemma NormalizeIdempotent(slide: string)
    ensures NormalizeSlide(NormalizeSlide(slide)) == NormalizeSlide(slide)
  {
  }

  /** Dropping the suffix that normalisation added gives back the name. */
  lemma NormalizeStripsBack(slide: string)
    requires !EndsWith(slide, ZipSuffix)
    ensures var r := NormalizeSlide(slide); r[..|r| - |ZipSuffix|] == slide
  {
  }

  /** `goToSlide(slide, presentation)`: one navigation call to the
      normalised archive name, carrying the presentation only when it is
      truthy. */
  function GoToSlide(slide: string, presentation: Value): (run: Run<()>)
    ensures |run.calls| == 1 && IsNavigation(run.calls[0])
    ensures run.calls[0].slide == Str(NormalizeSlide(slide))
    ensures run.calls[0].SlideInCall? <==> Truthy(presentation)
    ensures run.calls[0].SlideInCall? ==> run.calls[0].presentation == presentation
  {
    var target := Str(NormalizeSlide(slide));
    if Truthy(presentation) then Run([SlideInCall(target, presentation)], ())
    else Run([SlideCall(target)], ())
  }

  /** `goToSlide("01-home")` and `goToSlide("01-home.zip")` issue the same
      call, and in general a name and its normalised form navigate alike. */
  lemma GoToSlideNormalizedAlike(slide: string, presentation: Value)
    ensures GoToSlide(NormalizeSlide(slide), presentation) == GoToSlide(slide, presentation)
  {
  }

  // ----- goToDSP -----------------------------------------------------------

  /** Step 1: the presentation whose Vault document id is given (the id is
      interpolated without quotes). */
  function PresentationRequest(vaultDocumentId: string): QueryRequest
  {
    QueryRequest(
      "Clm_Presentation_vod__c",
      ["Presentation_Id_vod__c", "Id"],
      "WHERE Vault_Doc_Id_vod__c = " + vaultDocumentId,
      ["Vault_Doc_Id_vod__c, ASC"],
      "1")
  }

  /** Step 2: the slide with display order 1 of the presentation record. */
  function SlideRequest(presentationRecordId: string): QueryRequest
  {
    QueryRequest(
      "Clm_Presentation_Slide_vod__c",
      ["Key_Message_vod__c"],
      "WHERE Clm_Presentation_vod__c = '" + presentationRecordId + "' AND Display_Order_vod__c = 1",
      ["Key_Message_vod__c, ASC"],
      "1")
  }

  /** Step 3: the media file name of the key message. */
  function MediaLookup(keyMessageId: Value): HostCall
  {
    ObjectDataCall("Key_Message_vod__c", keyMessageId, "Media_File_Name_vod__c")
  }

  /** How `goToDSP` ends. `Caught` is an error its try/catch logged;
      `CallbackThrew` is an error thrown inside the `getDataForObject`
      callback, which that try/catch sees only if the host calls back
      synchronously. Only `Navigated` sends a navigation call. The caller
      never sees the outcome: the promise `goToDSP` returns always
      resolves to `undefined`. */
  datatype DspOutcome = Navigated | Caught(message: string) | CallbackThrew(message: string)

  /** `goToDSP(vaultDocumentID, mediaFileName)`. */
  function GoToDSP(host: Host, vaultDocumentId: string, mediaFileName: string): (run: Run<DspOutcome>)
    // the presentation query always comes first
    ensures |run.calls| >= 1 && run.calls[0] == QueryCall(PresentationRequest(vaultDocumentId))
    // at most one navigation, always last, and exactly when the outcome says so
    ensures NavigationIsLast(run.calls)
    ensures run.result.Navigated? <==> IsNavigation(run.calls[|run.calls| - 1])
    ensures forall c :: c in run.calls ==> !c.CreateCall? && !c.SlideCall?
    ensures run.result.Caught? ==> run.result.message != ""
    ensures run.result.CallbackThrew? ==> run.result.message != ""
    // no presentation row: the row access throws, is caught, nothing else is sent
    ensures var first := QueryRecord(host, PresentationRequest(vaultDocumentId)).result;
            !HasRow(first) ==> run.calls == [QueryCall(PresentationRequest(vaultDocumentId))] && run.result.Caught?
    // explicit media file: straight to it, no slide query and no media lookup
    ensures var first := QueryRecord(host, PresentationRequest(vaultDocumentId)).result;
            HasRow(first) && mediaFileName != "" ==>
              run.calls == [QueryCall(PresentationRequest(vaultDocumentId)),
                            SlideInCall(Str(mediaFileName), Get(first.rows[0], "Presentation_Id_vod__c"))]
              && run.result == Navigated
    // no media file: the slide query is keyed by the presentation's record id
    ensures var first := QueryRecord(host, PresentationRequest(vaultDocumentId)).result;
            HasRow(first) && mediaFileName == "" ==>
              |run.calls| >= 2 && run.calls[1] == QueryCall(SlideRequest(ToStr(Get(first.rows[0], "Id"))))
    ensures var first := QueryRecord(host, PresentationRequest(vaultDocumentId)).result;
            HasRow(first) && mediaFileName == "" ==>
              var second := QueryRecord(host, SlideRequest(ToStr(Get(first.rows[0], "Id")))).result;
              (!HasRow(second) ==> |run.calls| == 2 && run.result.Caught?)
              && (HasRow(second) ==>
                    var km := Get(second.rows[0], "Key_Message_vod__c");
                    |run.calls| >= 3 && run.calls[2] == MediaLookup(km)
                    && (var media := ObjectField(host.objectData("Key_Message_vod__c", km, "Media_File_Name_vod__c"),
                                                 "Key_Message_vod__c", "Media_File_Name_vod__c");
                        media.Throw? ==> |run.calls| == 3 && run.result.CallbackThrew?))
  {
    var q1 := QueryRecord(host, PresentationRequest(vaultDocumentId));
    match FirstRow(q1.result, "Id")
    case Throw(m) => Run(q1.calls, Caught(m))
    case Ok(presentation) =>
      var presentationRecordId := Get(presentation, "Id");
      var presentationId := Get(presentation, "Presentation_Id_vod__c");
      if mediaFileName != "" then
        Run(q1.calls + [SlideInCall(Str(mediaFileName), presentationId)], Navigated)
      else
        var q2 := QueryRecord(host, SlideRequest(ToStr(presentationRecordId)));
        match FirstRow(q2.result, "Key_Message_vod__c")
        case Throw(m) => Run(q1.calls + q2.calls, Caught(m))
        case Ok(slide) =>
          var keyMessageId := Get(slide, "Key_Message_vod__c");
          var lookup := MediaLookup(keyMessageId);
          var response := host.objectData(lookup.objectKind, lookup.id, lookup.field);
          match ObjectField(response, "Key_Message_vod__c", "Media_File_Name_vod__c")
          case Throw(m) => Run(q1.calls + q2.calls + [lookup], CallbackThrew(m))
          case Ok(mediaFile) =>
            Run(q1.calls + q2.calls + [lookup, SlideInCall(mediaFile, presentationId)], Navigated)
  }

  /** The full chain: with no explicit media file and every lookup
      answered, the calls are exactly presentation query, first-slide
      query, media lookup, navigation, and the navigation targets the key
      message's media file inside the resolved presentation. */
  lemma DspFullChain(host: Host, vaultDocumentId: string)
    requires HasRow(QueryRecord(host, PresentationRequest(vaultDocumentId)).result)
    requires var first := QueryRecord(host, PresentationRequest(vaultDocumentId)).result;
             HasRow(QueryRecord(host, SlideRequest(ToStr(Get(first.rows[0], "Id")))).result)
    requires var first := QueryRecord(host, PresentationRequest(vaultDocumentId)).result;
             var second := QueryRecord(host, SlideRequest(ToStr(Get(first.rows[0], "Id")))).result;
             var response := host.objectData("Key_Message_vod__c", Get(second.rows[0], "Key_Message_vod__c"), "Media_File_Name_vod__c");
             response.Some? && "Key_Message_vod__c" in response.value
    ensures var first := QueryRecord(host, PresentationRequest(vaultDocumentId)).result;
            var second := QueryRecord(host, SlideRequest(ToStr(Get(first.rows[0], "Id")))).result;
            var km := Get(second.rows[0], "Key_Message_vod__c");
            var media := host.objectData("Key_Message_vod__c", km, "Media_File_Name_vod__c").value["Key_Message_vod__c"];
            GoToDSP(host, vaultDocumentId, "") ==
              Run([QueryCall(PresentationRequest(vaultDocumentId)),
                   QueryCall(SlideRequest(ToStr(Get(first.rows[0], "Id")))),
                   MediaLookup(km),
                   SlideInCall(Get(media, "Media_File_Name_vod__c"), Get(first.rows[0], "Presentation_Id_vod__c"))],
                  Navigated)
  {
  }

  /** goToDSP navigates at most once, whatever the host answers. */
  lemma DspNavigatesAtMostOnce(host: Host, vaultDocumentId: string, mediaFileName: string)
    ensures Navigations(GoToDSP(host, vaultDocumentId, mediaFileName).calls) <= 1
    ensures Navigations(GoToDSP(host, vaultDocumentId, mediaFileName).calls) == 1
            <==> GoToDSP(host, vaultDocumentId, mediaFileName).result.Navigated?
  {
    AtMostOneNavigation(GoToDSP(host, vaultDocumentId, mediaFileName).calls);
  }

  /** A host answering the document "DOC123" with presentation a001/P1, its
      first slide with key message KM1, and KM1's media file intro.zip. */
  function ScenarioHost(): Host
  {
    Host(
      (req: QueryRequest) =>
        if req.collection == "Clm_Presentation_vod__c" then
          QueryResponse(true, Undefined, map["Clm_Presentation_vod__c" := [map["Id" := "a001", "Presentation_Id_vod__c" := "P1"]]])
        else if req.collection == "Clm_Presentation_Slide_vod__c" then
          QueryResponse(true, Undefined, map["Clm_Presentation_Slide_vod__c" := [map["Key_Message_vod__c" := "KM1"]]])
        else
          QueryResponse(false, Undefined, map[]),
      (kind: string, id: Value, field: string) =>
        if id == Str("KM1") then Some(map["Key_Message_vod__c" := map["Media_File_Name_vod__c" := "intro.zip"]])
        else None)
  }

  /** End-to-end: document DOC123 without a media file navigates to
      ("intro.zip", "P1") after exactly three lookups. */
  lemma DspScenario()
    ensures var run := GoToDSP(ScenarioHost(), "DOC123", "");
            run.result == Navigated && |run.calls| == 4
            && run.calls[1] == QueryCall(SlideRequest("a001"))
            && run.calls[2] == MediaLookup(Str("KM1"))
            && run.calls[3] == SlideInCall(Str("intro.zip"), Str("P1"))
  {
  }
}

=== FILE: tracking.dfy ===
/** Interaction tracking (`trackAction`) and the zoom check of
    `isZoomDisabled`. */
module Tracking {
  import opened Js
  import opened ClmHost

  /** The caller's event description: `{id, type, description}`. */
  datatype TrackingObject = TrackingObject(id: Value, elementType: Value, description: Value)

  const ClickstreamCollection: string := "Call_Clickstream_vod__c"

  /** The Call_Clickstream_vod__c record built from a tracking object. */
  function ClickStream(t: TrackingObject): (payload: map<string, Value>)
    ensures |payload| == 3
    ensures TrackingOf(payload) == Some(t)
  {
    map["Track_Element_Id_vod__c" := t.id,
        "Track_Element_Type_vod__c" := t.elementType,
        "Track_Element_Description_vod__c" := t.description]
  }

  /** Reads a tracking object back from a clickstream record, when the
      record carries all three tracked fields. */
  function TrackingOf(payload: map<string, Value>): Option<TrackingObject>
  {
    if "Track_Element_Id_vod__c" in payload && "Track_Element_Type_vod__c" in payload
       && "Track_Element_Description_vod__c" in payload
    then Some(TrackingObject(payload["Track_Element_Id_vod__c"],
                             payload["Track_Element_Type_vod__c"],
                             payload["Track_Element_Description_vod__c"]))
    else None
  }

  /** Different events give different records. */
  lemma ClickStreamInjective(a: TrackingObject, b: TrackingObject)
    requires ClickStream(a) == ClickStream(b)
    ensures a == b
  {
  }

  /** The argument `trackAction` receives: `null`, `undefined`, or an object. */
  datatype TrackingArg = NullArg | UndefinedArg | Given(obj: TrackingObject)

  /** `trackAction(trackingObject)`. The record is built before the `try`,
      so a `null` or `undefined` argument throws to the caller with no call.
      Otherwise exactly one createRecord call on the clickstream collection,
      carrying the record that is also logged (the result; `trackAction`
      itself returns `undefined`); whether its callback ever fires changes
      nothing. */
  function TrackAction(arg: TrackingArg): (run: Run<Result<map<string, Value>>>)
    ensures run.result.Throw? <==> !arg.Given?
    ensures run.result.Throw? ==> run.calls == [] && run.result.message != ""
    ensures arg.Given? ==>
              && |run.calls| == 1 && run.calls[0].CreateCall?
              && run.calls[0].collection == ClickstreamCollection
              && run.calls[0].payload == run.result.value
              && TrackingOf(run.result.value) == Some(arg.obj)
              && |run.result.value| == 3
    ensures Navigations(run.calls) == 0
  {
    match arg
    case NullArg => Run([], Throw(AccessError("null", "id")))
    case UndefinedArg => Run([], Throw(AccessError("undefined", "id")))
    case Given(t) =>
      var payload := ClickStream(t);
      Run([CreateCall(ClickstreamCollection, payload)], Ok(payload))
  }

  /** The test on the Disable_Actions_vod__c value: zoom is disabled when
      the text contains "Zoom_vod" anywhere. */
  function ZoomDisabled(disableActions: string): (r: bool)
    ensures r <==> exists i :: OccursAt(disableActions, "Zoom_vod", i)
  {
    Includes(disableActions, "Zoom_vod")
  }

  /** A multi-select value listing Zoom_vod disables zoom; one that lists
      only other actions does not. */
  lemma ZoomDisabledExamples()
    ensures ZoomDisabled("Swipe_vod;Zoom_vod")
    ensures !ZoomDisabled("Swipe_vod")
  {
    assert OccursAt("Swipe_vod;Zoom_vod", "Zoom_vod", 10);
    assert "Swipe_vod"[1..] == "wipe_vod" && "wipe_vod"[1..] == "ipe_vod";
    assert !Includes("ipe_vod", "Zoom_vod");
    assert "wipe_vod"[..8][0] != "Zoom_vod"[0] && "Swipe_vod"[..8][0] != "Zoom_vod"[0];
    assert !Includes("wipe_vod", "Zoom_vod");
  }
}
